=== FILE: README.md ===
# CPS-2 beam-synchronised interrupts and frame executor

This project models how the CPS-2 driver runs one video frame of the main
68000 CPU. It covers the beam-synchronised raster interrupt (IRQ 4) that
games use for mid-screen effects, from `src/burn/drv/capcom/cps_run.c`. The
model has four parts:

- **Registers.** The CPS-B words 0x4E, 0x50 and 0x52 are decoded into two
  trigger sources. Each source has a trigger line and an auto-repeat flag.
- **`ScheduleIRQ`.** It picks the lower armed trigger line. It turns that
  line into a cycle count, `line * C / N + 1`, where `C` is the 68000
  cycles per frame and `N` the scanline count.
- **`DoIRQ`.** It asserts the interrupt and records the raster line in the
  next snapshot slot. It lets the CPU run one scanline, then copies the
  register image into the slot or discards the slot. Finally it moves both
  sources on and schedules the next interrupt, with a forward-progress
  fix-up.
- **`Cps2Frame`.** It runs these phases in order:
  - the optional reset;
  - the frame-start decode;
  - the idle catch-up on the previous frame's overrun;
  - the lead-in dispatch before line 16;
  - the baseline snapshot in slot 0;
  - the re-arm guard;
  - three segments of the active display, each with a capacity guard;
  - object capture, VBlank, the draw, the drain to the end of the frame and
    the drift carry.

The 68000 is a cycle counter. A run asked for `n` cycles executes at least
`max(n, 0)`. How far it overshoots, and what the registers hold when it
stops, come from a supply of bursts that is a parameter of the machine. When
the supply is empty, runs are exact. Interrupt assertions, object capture and
the draw are appended to an event log. The snapshot store is the interrupt
counter, the raster line of each slot, and each slot's copy of an abstract
register image.

The modules follow the structure of the code:

| module | file | contents |
|---|---|---|
| `Timing` | `timing.dfy` | frame timing, the line-to-cycle conversion, and the phase boundaries |
| `Registers` | `registers.dfy` | the trigger words and the reset values |
| `Scheduler` | `scheduler.dfy` | `ScheduleIRQ`, the source update, the fix-up, the frame-start decode, and the re-arm guard |
| `Dispatch` | `dispatch.dfy` | the machine, `SekRun`/`SekIdle`, and `DoIRQ` |
| `Frame` | `frame.dfy` | `Cps2Frame` and its invariants |
| `Examples` | `examples.dfy` | concrete scenarios and the path of an auto-repeating source |

## What the proofs establish about a frame

- **Termination of the segment loop.** Each dispatch of the lower armed
  trigger strictly shrinks the scanlines both sources still have to travel.
  `Scheduler.Pending` is that sum, and the loop uses it as its measure.
- **Snapshot store.** Throughout a frame, slot 0 holds raster line 0.
  Slots 1 to the counter hold the recorded raster lines, strictly increasing
  and all inside the 224 active lines. Every slot above the counter is clear.
  The counter never exceeds `MAX_RASTER`.
- **Event order.** Every raster interrupt of a frame is for a line before
  240. Each is asserted no earlier than its line's cycle, and all come before
  VBlank. VBlank is asserted no earlier than the end of the active display.
- **Reset.** After `DrvReset`'s register values, no source is armed. The
  frame then dispatches nothing and leaves the counter at 0.
- **Drift carry.** The carry is the frame's overrun and is never negative.
  With an exact CPU, a carry of at most one scanline stays at most one
  scanline.
- **Which interrupts a frame dispatches.** `Scheduler.Fire` is DoIRQ's
  update of lines 236-251 seen on the trigger lines alone: the lower armed
  line fires and both sources move on. `Frame.Follows` says that a log is
  the successive firings from given sources. The raster interrupts of a
  frame are exactly the successive firings from the sources decoded at
  frame start. Each logged interrupt carries the cycle it was due. Each
  segment's loop dispatches only interrupts due before that segment's end,
  and the frame dispatches only interrupts due before the end of the active
  display. Firing stops only when the next interrupt is not due before the
  end of the display, or when the store is full.
- **One repeating source.** Take a frame whose registers arm source 0x50
  alone, auto-repeating from a line `L` of at least 16. Assume an exact CPU,
  at least two cycles per scanline and `MAX_RASTER` of at least 7. Assume
  also that the previous frame left a carry of at most one scanline, or that
  the frame resets. A larger carry can leave the second line already
  overdue, and then the frame dispatches only one line. Under these
  assumptions the
  frame dispatches exactly the lines `L + 32i` that lie before 240, in that
  order, and each takes one slot. From line 16 that is seven dispatches,
  whether `N` is 259 or 272.

## Behaviour worth knowing

The code behaves as follows on each of these points, and the model follows
it.

- **The fix-up is not strict.** After a dispatch, the next interrupt may
  fall due exactly at the cycles already executed: the test at line 253 is
  `<`. `Scheduler.FixUp` states it: an interrupt due at or after the
  executed total is left where it is.
- **Auto-repeat count.** The update rule of lines 240-243 takes an
  auto-repeating source starting at line `L` through `ceil((N - L) / 32)`
  on-screen lines of an `N`-line frame. That is not `floor((N - L) / 32) + 1`:
  the two differ when `N - L` is a multiple of 32
  (`Examples.RepeatOnExactMultiple`). A frame dispatches fewer of them,
  because the segment loop stops at the end of the active display: only the
  lines before 240 are dispatched (`Frame.Cps2Frame`). From line 16 the rule
  visits eight lines for both `N = 259` and `N = 272`. The eighth is 240, so
  the frame dispatches seven (`Examples.RepeatFromFirstLine`).
- **No discarded snapshots in a frame.** Every line dispatched in a frame
  lies before line 240. So its raster line is below 224, and the discard branch of
  lines 228-233 is never taken for a freshly recorded slot.
- **The capacity guard** compares the counter with `MAX_RASTER`, not
  `MAX_RASTER + 2`.
- **Lines before 16.** The lead-in dispatches at most once. A second line
  before 16 is dispatched in the first segment without moving the counter, so
  it copies the registers over the slot-0 baseline
  (`Examples.EarlyLineUsesSlotZero`).
- **The re-arm guard at line 318 never fires while `N` stays the same.**
  `ScheduleIRQ` only ever sets the scheduled line to an on-screen line. So
  a line left below `N` by the previous frame stays below it, and
  `Scheduler.Rearm` is the identity while that holds. The guard can fire
  only when the scanline count shrinks between frames, and `Frame.Ready`
  excludes that case (see "Left out").

## Model

| member | source | states |
|---|---|---|
| `Timing.LineCycleInFrame` | src/burn/drv/capcom/cps_run.c:202-204 | an on-screen line's interrupt cycle `line*C/N + 1` lies in `[1, C]` |
| `Timing.LineStartMonotone` | src/burn/drv/capcom/cps_run.c:204 | a later line never starts at an earlier cycle |
| `Timing.LineStartStep` | src/burn/drv/capcom/cps_run.c:204 | a later line starts at least one scanline after an earlier one |
| `Timing.DueBeforeLine` | src/burn/drv/capcom/cps_run.c:306 | an interrupt due by the start of line `k` is for a line before `k`; so the lead-in only fires for lines before 16 |
| `Timing.FrameEnd` | src/burn/drv/capcom/cps_run.c:204 | line `N` starts at cycle `C`, the end of the frame |
| `Timing.PhaseOrder` | src/burn/drv/capcom/cps_run.c:277-281 | one scanline ≤ lead-in end ≤ display end ≤ frame length |
| `Timing.SegmentsInDisplay` | src/burn/drv/capcom/cps_run.c:324-325 | each segment end `(i+1)*D/3` lies within the active display, and the third is its end |
| `Timing.LeadInRoom` | src/burn/drv/capcom/cps_run.c:306-313 | the lead-in end plus two scanlines is still inside the active display |
| `Registers.EncodeTrigger` | src/burn/drv/capcom/cps_run.c:290-300 | a trigger word written from a flag and line decodes back to that flag (bit 15) and line (bits 0-8) |
| `Registers.DecodeTrigger` | src/burn/drv/capcom/cps_run.c:288-301 | auto-repeat is bit 15; the line is the low 9 bits when auto-repeat is set or bit 9 of 0x4E is clear, else `N` |
| `Registers.ResetImage` | src/burn/drv/capcom/cps_run.c:53-56 | the reset values disable beam sync; for `N < 0x8000` both sources decode as one-shot and parked at `N` |
| `Scheduler.ScheduleIrq` | src/burn/drv/capcom/cps_run.c:191-210 | picks the lower of the two lines; if it is on screen, the interrupt is that line at cycle `line*C/N + 1 ≤ C`; otherwise `C + 1` with the old line kept; triggers unchanged |
| `Scheduler.FixUp` | src/burn/drv/capcom/cps_run.c:253-255 | the next interrupt is at or after the executed total (not strictly); moved to `total + 1` only when overdue |
| `Scheduler.FixUpKeepsSchedule` | src/burn/drv/capcom/cps_run.c:252-255 | the fix-up keeps the scheduling invariant |
| `Scheduler.AdvanceSource50` | src/burn/drv/capcom/cps_run.c:236-244 | a one-shot source at or before the fired line is parked at `N`; an auto source on the fired line moves 32 on; any other source keeps its line |
| `Scheduler.AdvanceSource52` | src/burn/drv/capcom/cps_run.c:245-251 | the same rule as written for source 0x52 |
| `Scheduler.SourceBranchesAgree` | src/burn/drv/capcom/cps_run.c:236-251 | the two differently written source branches agree on every input |
| `Scheduler.AdvanceSources` | src/burn/drv/capcom/cps_run.c:236-252 | dispatching the lower armed trigger strictly decreases the pending scanlines and moves the next trigger below the fired line |
| `Scheduler.Fire` | src/burn/drv/capcom/cps_run.c:236-251 | firing the lower armed line keeps the auto flags and, when it is on screen, decreases the pending scanlines and moves the next line past it |
| `Scheduler.StartSources` | src/burn/drv/capcom/cps_run.c:288-302 | the frame-start decode and first schedule; a source is armed only if auto-repeat or beam sync is enabled, and when one is, the interrupt is the lower armed line at that line's cycle |
| `Scheduler.Rearm` | src/burn/drv/capcom/cps_run.c:318-322 | nothing changes unless the scheduled line is off screen and beam sync is enabled; then both lines are re-read from the words with the auto flags kept, and the schedule is redone: an armed source is due at its line's cycle, otherwise the interrupt is parked at `C + 1` |
| `Dispatch.Run` | src/burn/drv/capcom/cps_run.c:307 | a CPU run executes at least the cycles asked for, exactly those when exact, and touches only the total, registers and burst supply |
| `Dispatch.Idle` | src/burn/drv/capcom/cps_run.c:304 | idling adds exactly the cycles given and changes nothing else |
| `Dispatch.Record` | src/burn/drv/capcom/cps_run.c:220-224 | a visible line takes the next slot and records `line - 16`; a line before 16 changes nothing |
| `Dispatch.Capture` | src/burn/drv/capcom/cps_run.c:228-233 | the slot in use gets the register copy when its raster line is below 224, and is otherwise reset to 0 with no copy |
| `Dispatch.Snapshot` | src/burn/drv/capcom/cps_run.c:220-233 | the counter moves by one exactly for a visible line; only the slot in use changes |
| `Dispatch.Reschedule` | src/burn/drv/capcom/cps_run.c:236-255 | the sources move by the rule of 236-251; the next interrupt is the lower armed line at its cycle, or `C + 1` with the old line when none is armed, moved to `total + 1` only when that is already overdue; the pending scanlines decrease |
| `Dispatch.DoIrq` | src/burn/drv/capcom/cps_run.c:213-258 | logs the IRQ 4 at the current total, runs a scanline, moves the counter by one iff the line is at least 16, keeps or discards the slot, leaves other slots alone, moves the sources by the rule of 236-251, and schedules the lower armed line at its cycle, or at `total + 1` when that is overdue |
| `Frame.PowerOn` | src/burn/drv/capcom/cps_run.c:283-285 | the zero-initialised machine with `MAX_RASTER + 2` clear slots is ready for a frame |
| `Frame.DrvReset` | src/burn/drv/capcom/cps_run.c:53-62 | reset writes 0x0200 to word 0x4E and `N` (as a 16-bit word) to 0x50 and 0x52, clears the drift carry and changes nothing else; no source is then armed |
| `Frame.RecordedInDisplay` | src/burn/drv/capcom/cps_run.c:220-224 | the raster lines recorded from a frame's interrupts strictly increase and lie in `[0, 224)` |
| `Frame.StoreStep` | src/burn/drv/capcom/cps_run.c:220-233 | a dispatch keeps the snapshot store in step with the interrupt log |
| `Frame.FollowsStep` | src/burn/drv/capcom/cps_run.c:236-251 | logging the lower armed line and moving the sources by DoIRQ's rule continues a walk of firings |
| `Frame.FollowsJoin` | src/burn/drv/capcom/cps_run.c:236-251 | a walk of firings followed by a walk from where it left the triggers is one walk |
| `Frame.DispatchStep` | src/burn/drv/capcom/cps_run.c:327-330 | a dispatch due before the end of the active display keeps the frame invariant and makes progress |
| `Frame.DispatchScheduled` | src/burn/drv/capcom/cps_run.c:328-329 | running to the scheduled interrupt and dispatching it logs the scheduled line and the cycle it was due, keeps the frame invariant and the exact-CPU drift bound, moves the sources by DoIRQ's rule and schedules the next lower armed line |
| `Frame.DispatchDue` | src/burn/drv/capcom/cps_run.c:328-329 | one turn of the segment loop dispatches the first firing of the lower armed line, which was due before `nNext`, keeps the frame invariant, and makes progress |
| `Frame.LeadInDispatch` | src/burn/drv/capcom/cps_run.c:306-309 | the lead-in dispatch logs the scheduled line, which is before 16 and the first firing, and the cycle it was due; the counter stays 0 |
| `Frame.RepeatingDispatch` | src/burn/drv/capcom/cps_run.c:213-258 | with source 0x50 alone repeating, any result of a dispatch as DoIRQ does it logs the line, moves it 32 on, and leaves the next interrupt due exactly at the new line's cycle |
| `Frame.StartRepeating` | src/burn/drv/capcom/cps_run.c:288-302 | registers that arm source 0x50 alone, repeating from a visible line, schedule it at that line's cycle, after the lead-in |
| `Frame.RepeatingComplete` | src/burn/drv/capcom/cps_run.c:324-332 | with source 0x50 alone repeating, the end of the active display leaves its line at or past 240 |
| `Frame.LeadIn` | src/burn/drv/capcom/cps_run.c:306-313 | an interrupt due before line 16 starts is dispatched, once, and only such an interrupt; it is for a line before 16, so the counter stays 0; nothing happens when none is due; the CPU reaches the start of line 16 |
| `Frame.StartFrame` | src/burn/drv/capcom/cps_run.c:265-304 | the first steps clear the store and the log, restart the total and idle away the carry, and schedule from the frame's registers; disarmed sources are not due this frame |
| `Frame.DispatchUntil` | src/burn/drv/capcom/cps_run.c:327-330 | dispatches the successive firings of the lower armed line until the next interrupt is not due before `nNext` or the counter reaches `MAX_RASTER`; every interrupt it dispatches was due before `nNext`; the frame invariant is kept |
| `Frame.RunSegment` | src/burn/drv/capcom/cps_run.c:325-331 | the dispatch loop, which dispatches only interrupts due before the segment end and leaves none due before it unless the store is full; then the CPU reaches the segment end |
| `Frame.BeginFrame` | src/burn/drv/capcom/cps_run.c:265-322 | after the start phases the counter is 0, slot 0 holds the baseline copy of the registers, and the CPU has reached line 16; with disarmed sources nothing is logged or due this frame; with source 0x50 alone repeating, nothing is dispatched and its interrupt is due at its line |
| `Frame.DisplayPass` | src/burn/drv/capcom/cps_run.c:324-332 | each pass of the loop reaches its segment end with no interrupt due before it unless the store is full, dispatches only interrupts due before that end, and extends the walk of firings |
| `Frame.ActiveDisplay` | src/burn/drv/capcom/cps_run.c:324-332 | the three segments reach the end of the active display, dispatch the successive firings of the lower armed line, all of them due before its end, and leave no interrupt due before it unless the store is full |
| `Frame.RasterPhase` | src/burn/drv/capcom/cps_run.c:265-332 | up to the end of the active display, the interrupts dispatched are exactly the successive firings from the frame-start decode, each due before the end of the display, stopping only when the next is not due before the end or the store is full |
| `Frame.FrameTail` | src/burn/drv/capcom/cps_run.c:334-340 | the tail events after the raster interrupts give a well-ordered frame log and leave the recorded lines unchanged |
| `Frame.EndFrame` | src/burn/drv/capcom/cps_run.c:334-343 | object capture, VBlank and the draw follow the raster interrupts; the CPU reaches the frame end; the carry is the overrun |
| `Frame.Cps2Frame` | src/burn/drv/capcom/cps_run.c:260-350 | a frame keeps the machine ready, yields an ordered log and a consistent snapshot store; its raster interrupts are exactly the successive firings of the lower armed line from the frame-start decode, each due before the end of the active display and asserted no earlier than it was due, and it leaves no interrupt due before the end of the active display unless the store is full; it bounds the drift carry for an exact CPU and dispatches nothing when both sources are disarmed; with source 0x50 alone repeating from `L`, an exact CPU and a carry of at most one scanline (or a reset), it dispatches exactly the lines `L + 32i` before 240 |
| `Examples.PrimaryThenSecondary` | src/burn/drv/capcom/cps_run.c:191-251 | one-shot sources at 100 and 150 on 259 lines: 100 is picked first, source 0x50 is then parked at 259, and 150 is picked next |
| `Examples.RepeatLines` | src/burn/drv/capcom/cps_run.c:240-243 | the on-screen lines the update rule takes an auto source through are `L + 32i` |
| `Examples.RepeatCount` | src/burn/drv/capcom/cps_run.c:240-243 | the rule takes an auto source from line `L` through `ceil((N - L) / 32)` on-screen lines |
| `Examples.RepeatFromFirstLine` | src/burn/drv/capcom/cps_run.c:240-243 | from line 16 of a 259-line frame the rule visits eight lines; the eighth is 240, which a frame never dispatches |
| `Examples.RepeatOnExactMultiple` | src/burn/drv/capcom/cps_run.c:240-243 | from line 16 of a 272-line frame it visits eight lines, not nine; the eighth is again 240 |
| `Examples.EarlyLineUsesSlotZero` | src/burn/drv/capcom/cps_run.c:220-231 | a line before 16 dispatched with the counter at 0 writes its copy into slot 0 |

## Left out

- 68000 execution. `SekRun`, `SekIdle`, `SekOpen`, `SekClose` and
  `SekSetCyclesScanline` are replaced by the counter with an overshoot
  supply. `SekSetIRQLine` becomes an event in the log.
- `Dispatch.Idle`: idling is modelled as exact, with no overshoot. It
  executes no instructions.
- `Dispatch.DoIrq`: requires that the slot a visible line takes exists.
  The source does not check the index. The frame's capacity guard keeps it
  within the `MAX_RASTER + 2` slots, and `Frame.RunSegment` proves that.
- The contents of the register and sprite blocks (`CpsReg`, `CpsFrg`) and
  the `memcpy` of lines 180-188. They are an abstract `Image` that the
  snapshot copies whole.
- Byte order. The three control words are taken as already byte-swapped
  16-bit values.
- QSound, the Z80, the EEPROM, `CpsRwGetInp`, `CpsObjGet`, `CpsDraw`,
  `CpsMapObjectBanks`, the high-score and cheat hooks, and the reset
  callback. These are external calls. Object capture and the draw are only
  logged.
- `CpsRunInit` and `CpsRunExit`, and the rest of `DrvReset`. They only
  order external calls. The model keeps the three register writes and the
  cleared carry.
- Machine integers. Arithmetic is on unbounded integers, so INT32 overflow
  of `line * nCpsCycles` is not modelled.
- The derivation of the cycles per frame from the clock speed and speed
  adjustment (line 275). `C > 0` and `N >= 240` are parameters.
- `MAX_RASTER`. It is defined in a header that is not part of this model,
  and is a parameter of at least 1.
- `Frame.Cps2Frame`: requires through `Frame.Ready` that the scheduled
  line left by the previous frame lies below the current scanline count.
  That holds while `N` does not shrink between frames. So the firing path
  of the re-arm guard (lines 318-322) is not covered by the frame's
  contract; `Scheduler.Rearm`'s own contract states it.
- `Frame.Cps2Frame`: states which register image only slot 0 holds (the
  baseline, through `Frame.BeginFrame`). For slots 1 to the counter, only
  the single dispatch's copy is stated (`Dispatch.DoIrq`), not the whole
  frame's contents of the slots.
- `Registers.ResetImage`: the decode claim is stated only for
  `N < 0x8000`. From 0x8000 up, the stored scanline count would set the
  auto-repeat bit.

=== FILE: dispatch.dfy ===
/** The interrupt dispatcher (DoIRQ) over a machine made of the scheduler,
    the raster snapshot store, the register image, and an abstract 68000.

    The 68000 is a cycle counter. A run asked for `n` cycles executes at
    least `max(n, 0)`: how far it overshoots, and what the register image
    is when it stops, come from a supply of `Burst`s, one per run; with the
    supply exhausted a run is exact and leaves the registers alone. Idling
    adds cycles exactly. Interrupt assertions and the frame's other external
    calls are appended to an event log. */
module Dispatch {
  import opened Timing
  import opened Registers
  import opened Scheduler

  /** What one run of the 68000 does beyond the cycles asked for. */
  datatype Burst = Burst(overshoot: nat, image: Image)

  /** Observable steps of a frame. `BeamSync` and `VBlank` are the IRQ 4 and
      IRQ 2 assertions, stamped with the executed cycle total; a `BeamSync`
      also carries the cycle its interrupt was scheduled for (nIrqCycles). */
  datatype Event =
    | BeamSync(line: nat, due: int, cycle: int)
    | ObjectsCaptured
    | VBlank(cycle: int)
    | Drawn

  /** The raster snapshot store: the interrupt counter (nInterrupt), the
      raster line of each slot (nRasterline), and each slot's copy of the
      register image (CpsSaveReg and CpsSaveFrg). */
  datatype Store = Store(count: int, rasterline: seq<int>, saved: seq<Image>)

  datatype Machine = Machine(
    src: Sources,
    store: Store,
    image: Image,
    total: int,
    bursts: seq<Burst>,
    carry: int,
    log: seq<Event>)

  /** Every run in the supply stops exactly where it was asked to. */
  predicate Exact(bursts: seq<Burst>) {
    forall i | 0 <= i < |bursts| :: bursts[i].overshoot == 0
  }

  /** The store has one raster line and one copy per slot. */
  predicate Shaped(st: Store) {
    |st.saved| == |st.rasterline|
  }

  /** SekRun(n). */
  function Run(m: Machine, n: int): (r: Machine)
    ensures r.total >= m.total && r.total >= m.total + n
    ensures Exact(m.bursts) ==> r.total == (if n > 0 then m.total + n else m.total)
    ensures Exact(m.bursts) ==> Exact(r.bursts)
    ensures r.src == m.src && r.store == m.store && r.carry == m.carry && r.log == m.log
  {
    var asked := if n > 0 then n else 0;
    if |m.bursts| == 0 then
      m.(total := m.total + asked)
    else
      var b := m.bursts[0];
      m.(total := m.total + asked + b.overshoot, image := b.image, bursts := m.bursts[1..])
  }

  /** SekIdle(n): cycles are counted without executing anything. */
  function Idle(m: Machine, n: int): (r: Machine)
    ensures r.total - n == m.total
    ensures r == m.(total := r.total)
  {
    m.(total := m.total + n)
  }

  /** Step (a) of DoIRQ: an interrupt on a visible line takes the next slot
      and records its raster line there. */
  function Record(st: Store, line: nat): (r: Store)
    requires 0 <= st.count && (line >= FirstLine ==> st.count + 1 < |st.rasterline|)
    ensures r.count == st.count + (if line >= FirstLine then 1 else 0)
    ensures r.saved == st.saved && |r.rasterline| == |st.rasterline|
    ensures line >= FirstLine ==> r.rasterline[r.count] == line - FirstLine
    ensures forall j | 0 <= j < |st.rasterline| && j != r.count :: r.rasterline[j] == st.rasterline[j]
    ensures line < FirstLine ==> r == st
  {
    if line >= FirstLine then
      st.(count := st.count + 1, rasterline := st.rasterline[st.count + 1 := line - FirstLine])
    else
      st
  }

  /** Step (d) of DoIRQ: the current slot gets a copy of the registers when
      its raster line lies inside the active display; otherwise its raster
      line is reset to 0 and nothing is copied. */
  function Capture(st: Store, img: Image): (r: Store)
    requires Shaped(st) && 0 <= st.count < |st.rasterline|
    ensures Shaped(r) && |r.rasterline| == |st.rasterline| && r.count == st.count
    ensures st.rasterline[st.count] < ActiveLines ==>
              r.rasterline == st.rasterline && r.saved == st.saved[st.count := img]
    ensures st.rasterline[st.count] >= ActiveLines ==>
              r.rasterline == st.rasterline[st.count := 0] && r.saved == st.saved
    ensures 0 <= r.rasterline[r.count] < ActiveLines || st.rasterline[st.count] < 0
  {
    var k := st.count;
    if st.rasterline[k] < ActiveLines then st.(saved := st.saved[k := img])
    else st.(rasterline := st.rasterline[k := 0])
  }

  /** Steps (a) and (d) of DoIRQ together: the slot in use after the
      interrupt at `line` keeps the register image `img` only when its raster
      line lies inside the active display; every other slot is untouched. */
  function Snapshot(st: Store, line: nat, img: Image): (r: Store)
    requires Shaped(st) && 0 <= st.count < |st.rasterline|
    requires line >= FirstLine ==> st.count + 1 < |st.rasterline|
    ensures r.count == st.count + (if line >= FirstLine then 1 else 0)
    ensures Shaped(r) && |r.rasterline| == |st.rasterline|
    ensures var k := r.count;
            var due := if line >= FirstLine then line - FirstLine else st.rasterline[k];
            && (due < ActiveLines ==> r.rasterline[k] == due && r.saved[k] == img)
            && (due >= ActiveLines ==> r.rasterline[k] == 0 && r.saved[k] == st.saved[k])
    ensures forall j | 0 <= j < |st.rasterline| && j != r.count ::
              r.rasterline[j] == st.rasterline[j] && r.saved[j] == st.saved[j]
  {
    Capture(Record(st, line), img)
  }

  /** Steps (b), (c) and (e) of DoIRQ: move the sources on past the line
      that fired, schedule the next interrupt, and push it past the cycles
      already executed. */
  function Reschedule(s: Sources, total: int, t: FrameTiming): (r: Sources)
    requires t.Valid()
    ensures r.irqCycles >= total
    ensures s.irqLine < t.lines ==> Scheduled(r, t)
    ensures s.irqLine == Next(s) < t.lines ==>
              Pending(r, t.lines) < Pending(s, t.lines) && Next(r) > s.irqLine
    // the sources move by the rule of lines 236-251 ...
    ensures SameTriggers(AdvanceSources(s, t.lines), r)
    // ... and the interrupt is the lower armed line at its cycle, or past
    // the frame, pushed to total + 1 only when already overdue
    ensures Armed(r, t.lines) ==>
              var due := t.LineCycle(Next(r));
              r.irqLine == Next(r) && r.irqCycles == (if due < total then total + 1 else due)
    ensures !Armed(r, t.lines) ==>
              var due := t.cycles + 1;
              r.irqLine == s.irqLine && r.irqCycles == (if due < total then total + 1 else due)
  {
    var next := ScheduleIrq(AdvanceSources(s, t.lines), t);
    assert s.irqLine < t.lines ==> Scheduled(FixUp(next, total), t) by {
      if s.irqLine < t.lines {
        FixUpKeepsSchedule(next, total, t);
      }
    }
    FixUp(next, total)
  }

  /** DoIRQ: dispatch the scheduled interrupt and schedule the next one. */
  function DoIrq(m: Machine, t: FrameTiming): (r: Machine)
    requires t.Valid()
    requires Shaped(m.store) && 0 <= m.store.count < |m.store.rasterline|
    requires m.src.irqLine >= FirstLine ==> m.store.count + 1 < |m.store.rasterline|
    // the interrupt is asserted before the CPU runs on
    ensures r.log == m.log + [BeamSync(m.src.irqLine, m.src.irqCycles, m.total)]
    ensures r.total >= m.total + t.Scanline()
    ensures Exact(m.bursts) ==> r.total == m.total + t.Scanline() && Exact(r.bursts)
    ensures r.carry == m.carry
    // the counter moves by one exactly for a visible line
    ensures r.store.count == m.store.count + (if m.src.irqLine >= FirstLine then 1 else 0)
    ensures Shaped(r.store) && |r.store.rasterline| == |m.store.rasterline|
    // the slot in use is kept only inside the active display
    ensures var k := r.store.count;
            var due := if m.src.irqLine >= FirstLine then m.src.irqLine - FirstLine
                       else m.store.rasterline[k];
            && (due < ActiveLines ==> r.store.rasterline[k] == due && r.store.saved[k] == r.image)
            && (due >= ActiveLines ==> r.store.rasterline[k] == 0 && r.store.saved[k] == m.store.saved[k])
    ensures forall j | 0 <= j < |m.store.rasterline| && j != r.store.count ::
              r.store.rasterline[j] == m.store.rasterline[j] && r.store.saved[j] == m.store.saved[j]
    // the next interrupt is never due before the cycles already executed
    ensures r.src.irqCycles >= r.total
    ensures m.src.irqLine < t.lines ==> Scheduled(r.src, t)
    // a dispatch of the lower armed trigger makes progress down the screen
    ensures m.src.irqLine == Next(m.src) < t.lines ==>
              Pending(r.src, t.lines) < Pending(m.src, t.lines) && Next(r.src) > m.src.irqLine
    // the sources move by the rule of lines 236-251, and the next interrupt
    // is the lower armed line at its cycle, pushed past the new total only
    // when already overdue
    ensures SameTriggers(AdvanceSources(m.src, t.lines), r.src)
    ensures Armed(r.src, t.lines) ==>
              var due := t.LineCycle(Next(r.src));
              r.src.irqLine == Next(r.src) && r.src.irqCycles == (if due < r.total then r.total + 1 else due)
  {
    var m1 := m.(log := m.log + [BeamSync(m.src.irqLine, m.src.irqCycles, m.total)]);
    var m2 := Run(m1, t.Scanline());
    var st := Snapshot(m.store, m.src.irqLine, m2.image);
    var src := Reschedule(m.src, m2.total, t);
    m2.(store := st, src := src)
  }
}

=== FILE: examples.dfy ===
/** Concrete scenarios of the scheduler and the path of an auto-repeating
    source. */
module Examples {
  import opened Timing
  import opened Scheduler
  import opened Dispatch

  /** Two one-shot sources at lines 100 and 150 on a 259-line frame: the
      first schedule picks line 100; once it has fired, source 0x50 is spent
      for the frame and the next schedule picks line 150. */
  lemma PrimaryThenSecondary(t: FrameTiming)
    requires t.Valid() && t.lines == 259
    ensures var s := ScheduleIrq(Sources(100, 150, false, false, 0, 0), t);
            && s.irqLine == 100
            && AdvanceSources(s, t.lines).line50 == 259
            && ScheduleIrq(AdvanceSources(s, t.lines), t).irqLine == 150
  {
  }

  /** The on-screen lines an auto-repeating source starting at `line`
      visits within a frame of `lines` scanlines: each dispatch of its line
      moves it on by DoIRQ's own rule, until it lies past the last scanline.
      A frame dispatches only those before line 240 (Frame.Cps2Frame). */
  function RepeatLines(line: nat, lines: nat): (r: seq<nat>)
    ensures forall i | 0 <= i < |r| :: r[i] < lines && r[i] == line + i * RepeatStep
    decreases lines - line
  {
    if line < lines then
      [line] + RepeatLines(AdvanceSource50(true, line, line, lines), lines)
    else
      []
  }

  /** The update rule takes an auto-repeating source starting at `line`
      through ceil((N - line) / 32) on-screen lines of an N-line frame. */
  lemma {:induction false} RepeatCount(line: nat, lines: nat)
    ensures |RepeatLines(line, lines)| == if line < lines then (lines - line + RepeatStep - 1) / RepeatStep else 0
    decreases lines - line
  {
    if line < lines {
      var next := AdvanceSource50(true, line, line, lines);
      assert next == line + RepeatStep;
      RepeatCount(next, lines);
      var d := lines - line;
      if next < lines {
        assert (d + RepeatStep - 1) / RepeatStep == (d - 1) / RepeatStep + 1;
      }
    }
  }

  /** From line 16 of a 259-line frame the rule visits eight lines; the
      last of them, 240, lies past the active display and is never
      dispatched, so the frame dispatches seven. */
  lemma RepeatFromFirstLine()
    ensures |RepeatLines(FirstLine, 259)| == 8
    ensures RepeatLines(FirstLine, 259)[7] == DisplayLines
  {
    RepeatCount(FirstLine, 259);
  }

  /** When N - line is a multiple of 32 the count is (N - line) / 32: from
      line 16 of a 272-line frame the rule visits eight lines, not nine. The
      frame still dispatches seven, the eighth being 240. */
  lemma RepeatOnExactMultiple()
    ensures |RepeatLines(FirstLine, 272)| == 8
    ensures RepeatLines(FirstLine, 272)[7] == DisplayLines
  {
    RepeatCount(FirstLine, 272);
  }

  /** An interrupt on a line above the first visible one, dispatched with
      the counter at zero, copies the registers over slot 0: the baseline
      the frame takes at the end of its lead-in. */
  lemma EarlyLineUsesSlotZero(m: Machine, t: FrameTiming)
    requires t.Valid() && Shaped(m.store) && |m.store.rasterline| >= 1
    requires m.store.count == 0 && m.store.rasterline[0] == 0 && m.src.irqLine < FirstLine
    ensures var r := DoIrq(m, t);
            && r.store.count == 0 && r.store.rasterline[0] == 0 && r.store.saved[0] == r.image
  {
  }
}

=== FILE: frame.dfy ===
/** The per-frame executor (Cps2Frame): frame-start decode, idle catch-up,
    lead-in dispatch, baseline snapshot, re-arm guard, the three segments of
    the active display, object capture, VBlank, drain and drift carry. */
module Frame {
  import opened Timing
  import opened Registers
  import opened Scheduler
  import opened Dispatch

  /** What holds of the machine between frames: the snapshot store has its
      MAX_RASTER + 2 slots, the scheduled line lies on screen, and the drift
      carry is not negative. */
  predicate Ready(m: Machine, lines: int, maxRaster: int) {
    && maxRaster >= 1
    && Shaped(m.store) && |m.store.rasterline| == maxRaster + 2
    && m.src.irqLine < lines
    && m.carry >= 0
  }

  /** The machine as static initialisation leaves it: every counter zero. */
  function PowerOn(lines: int, maxRaster: int, img: Image): (m: Machine)
    requires lines >= DisplayLines && maxRaster >= 1
    ensures Ready(m, lines, maxRaster)
    ensures m.carry == 0 && m.src.irqLine == 0 && m.store.count == 0
  {
    Machine(Sources(0, 0, false, false, 0, 0),
            Store(0, seq(maxRaster + 2, _ => 0), seq(maxRaster + 2, _ => img)),
            img, 0, [], 0, [])
  }

  /** The part of DrvReset this core depends on (lines 53-56 and 62): the
      beam-sync words are written to their disabled values and the drift
      carry is cleared. */
  function DrvReset(m: Machine, lines: nat): (r: Machine)
    ensures BeamSyncDisabled(r.image.ctrl)
    ensures r.image.ctrl == 0x0200 && r.image.raster1 as int == r.image.raster2 as int == lines % 0x10000
    ensures r.image.rest == m.image.rest && r.image.frg == m.image.frg
    ensures r.carry == 0
    ensures r == m.(image := r.image, carry := 0)
    ensures lines < 0x8000 ==> Disarmed(r.image, lines)
  {
    m.(image := ResetImage(m.image, lines), carry := 0)
  }

  /** Neither trigger word arms its source when a frame starts. */
  predicate Disarmed(img: Image, lines: nat) {
    && DecodeTrigger(img.ctrl, img.raster1, lines).line >= lines
    && DecodeTrigger(img.ctrl, img.raster2, lines).line >= lines
  }

  /** The raster interrupts of a frame, in the order they were asserted:
      each is for a line above the end of the active display, was due before
      the display ends, and is asserted no earlier than its line's cycle nor
      the cycle it was due; lines strictly increase and cycle stamps never
      decrease. */
  predicate RasterLog(log: seq<Event>, t: FrameTiming)
    requires t.Valid()
  {
    && (forall i | 0 <= i < |log| ::
          && log[i].BeamSync? && log[i].line < DisplayLines && log[i].cycle >= t.LineCycle(log[i].line)
          && log[i].due < t.DisplayEnd() && log[i].due <= log[i].cycle)
    && (forall i, j | 0 <= i < j < |log| :: log[i].line < log[j].line && log[i].cycle <= log[j].cycle)
  }

  /** The raster lines a log's interrupts record, in order: one per
      interrupt on a visible line. */
  function Recorded(log: seq<Event>): seq<int> {
    if log == [] then []
    else
      var e := log[|log| - 1];
      Recorded(log[..|log| - 1]) + (if e.BeamSync? && e.line >= FirstLine then [e.line - FirstLine] else [])
  }

  lemma RecordedAppend(log: seq<Event>, e: Event)
    ensures Recorded(log + [e]) ==
            Recorded(log) + (if e.BeamSync? && e.line >= FirstLine then [e.line - FirstLine] else [])
  {
    assert (log + [e])[..|log|] == log;
  }

  predicate Increasing(s: seq<int>) {
    forall i, j | 0 <= i < j < |s| :: s[i] < s[j]
  }

  /** The raster lines recorded from a frame's interrupts are strictly
      increasing and all lie inside the active display, below the last
      interrupt's line. */
  lemma {:induction false} RecordedInDisplay(log: seq<Event>, t: FrameTiming)
    requires t.Valid() && RasterLog(log, t)
    ensures Increasing(Recorded(log))
    ensures forall k | 0 <= k < |Recorded(log)| :: 0 <= Recorded(log)[k] < ActiveLines
    ensures |log| > 0 ==>
              forall k | 0 <= k < |Recorded(log)| :: Recorded(log)[k] <= log[|log| - 1].line - FirstLine
  {
    if log != [] {
      var pre := log[..|log| - 1];
      var e := log[|log| - 1];
      assert log == pre + [e];
      RasterLogPrefix(log, t);
      RecordedInDisplay(pre, t);
      assert forall k | 0 <= k < |Recorded(pre)| :: Recorded(pre)[k] < e.line - FirstLine by {
        if pre != [] {
          assert pre[|pre| - 1] == log[|log| - 2];
        }
      }
      RecordedStep(pre, e);
    }
  }

  /** The inductive step of RecordedInDisplay. */
  lemma RecordedStep(pre: seq<Event>, e: Event)
    requires e.BeamSync? && e.line < DisplayLines
    requires Increasing(Recorded(pre))
    requires forall k | 0 <= k < |Recorded(pre)| :: 0 <= Recorded(pre)[k] < e.line - FirstLine
    ensures Increasing(Recorded(pre + [e]))
    ensures forall k | 0 <= k < |Recorded(pre + [e])| :: 0 <= Recorded(pre + [e])[k] < ActiveLines
    ensures forall k | 0 <= k < |Recorded(pre + [e])| :: Recorded(pre + [e])[k] <= e.line - FirstLine
  {
    RecordedAppend(pre, e);
    if e.line >= FirstLine {
      AppendAbove(Recorded(pre), e.line - FirstLine, ActiveLines);
    }
  }

  /** Appending a value above every element keeps a sequence increasing and
      bounded. */
  lemma AppendAbove(s: seq<int>, x: int, hi: int)
    requires Increasing(s) && 0 <= x < hi
    requires forall k | 0 <= k < |s| :: 0 <= s[k] < x
    ensures Increasing(s + [x])
    ensures forall k | 0 <= k < |s + [x]| :: 0 <= (s + [x])[k] < hi
    ensures forall k | 0 <= k < |s + [x]| :: (s + [x])[k] <= x
  {
  }

  lemma RasterLogPrefix(log: seq<Event>, t: FrameTiming)
    requires t.Valid() && RasterLog(log, t) && log != []
    ensures RasterLog(log[..|log| - 1], t)
  {
  }

  /** The snapshot store agrees with the interrupts logged so far: slot 0
      is the baseline, slots 1 to the counter hold the recorded raster lines,
      and the slots above are still clear. */
  predicate StoreMatches(st: Store, log: seq<Event>, maxRaster: int) {
    && Shaped(st) && |st.rasterline| == maxRaster + 2
    && 0 <= st.count <= maxRaster
    && st.rasterline[0] == 0
    && st.rasterline[1..st.count + 1] == Recorded(log)
    && (forall k | st.count < k < |st.rasterline| :: st.rasterline[k] == 0)
  }

  /** Every logged interrupt was asserted by cycle `total` and lies above
      line `next`. */
  predicate LogBefore(log: seq<Event>, total: int, next: int) {
    forall i | 0 <= i < |log| :: log[i].BeamSync? && log[i].cycle <= total && log[i].line < next
  }

  /** The interrupts logged from position `from` on were all due before
      cycle `next`. */
  predicate DueBefore(log: seq<Event>, from: int, next: int) {
    forall i | 0 <= from <= i < |log| :: log[i].BeamSync? && log[i].due < next
  }

  /** Logging one more interrupt due before `next`. */
  lemma DueBeforeStep(prev: seq<Event>, log: seq<Event>, from: int, next: int)
    requires prev <= log && |log| == |prev| + 1 && DueBefore(prev, from, next)
    requires log[|prev|].BeamSync? && log[|prev|].due < next
    ensures DueBefore(log, from, next)
  {
    assert forall i | 0 <= i < |prev| :: log[i] == prev[i];
  }

  /** What holds throughout a frame, from the first schedule to VBlank. */
  predicate FrameInv(m: Machine, t: FrameTiming, maxRaster: int) {
    && t.Valid() && maxRaster >= 1
    && StoreMatches(m.store, m.log, maxRaster)
    && Scheduled(m.src, t)
    && m.total >= 0
    && RasterLog(m.log, t)
    && LogBefore(m.log, m.total, Next(m.src))
  }

  /** With an exact 68000: the executed total stays within one scanline of
      the end of the active display, and within it whenever the scheduled
      interrupt is already overdue. */
  predicate Settled(m: Machine, t: FrameTiming)
    requires t.Valid()
  {
    && m.total <= t.DisplayEnd() + t.Scanline()
    && (m.src.irqCycles < m.total ==> m.total <= t.DisplayEnd())
  }

  /** The raster interrupts `log` are the successive firings of the lower
      armed line from the sources `s`, and those firings leave the trigger
      lines and flags of `src`. */
  predicate Follows(s: Sources, log: seq<Event>, src: Sources, lines: nat)
    decreases |log|
  {
    if log == [] then SameTriggers(s, src)
    else log[0].BeamSync? && log[0].line == Next(s) && Follows(Fire(s, lines), log[1..], src, lines)
  }

  /** Only the trigger lines and flags of the starting sources matter. */
  lemma {:induction false} FollowsSame(s: Sources, s': Sources, log: seq<Event>, src: Sources, lines: nat)
    requires SameTriggers(s, s') && Follows(s, log, src, lines)
    ensures Follows(s', log, src, lines)
    decreases |log|
  {
    if log != [] {
      FireSameTriggers(s, s', lines);
      FollowsSame(Fire(s, lines), Fire(s', lines), log[1..], src, lines);
    }
  }

  /** Two walks, the second from where the first left the triggers, make
      one walk. */
  lemma {:induction false} FollowsJoin(s: Sources, a: seq<Event>, s': Sources, b: seq<Event>, s'': Sources, lines: nat)
    requires Follows(s, a, s', lines) && Follows(s', b, s'', lines)
    ensures Follows(s, a + b, s'', lines)
    decreases |a|
  {
    if a == [] {
      assert a + b == b;
      FollowsSame(s', s, b, s'', lines);
    } else {
      FollowsJoin(Fire(s, lines), a[1..], s', b, s'', lines);
      assert (a + b)[1..] == a[1..] + b;
    }
  }

  /** Logging the dispatch of the lower armed line and moving the sources
      on by DoIRQ's rule continues the walk. */
  lemma FollowsStep(s: Sources, log: seq<Event>, src: Sources, src': Sources, e: Event, lines: nat)
    requires Follows(s, log, src, lines)
    requires src.irqLine == Next(src) && e.BeamSync? && e.line == src.irqLine
    requires SameTriggers(AdvanceSources(src, lines), src')
    ensures Follows(s, log + [e], src', lines)
  {
    assert src.(irqLine := Next(src)) == src;
    assert [e][1..] == [];
    FollowsJoin(s, log, src, [e], src', lines);
  }

  /** A walk continued on the rest of a longer log is a walk on it all. */
  lemma FollowsPrefix(s: Sources, a: seq<Event>, s': Sources, log: seq<Event>, s'': Sources, lines: nat)
    requires a <= log && Follows(s, a, s', lines) && Follows(s', log[|a|..], s'', lines)
    ensures Follows(s, log, s'', lines)
  {
    FollowsJoin(s, a, s', log[|a|..], s'', lines);
    assert a + log[|a|..] == log;
  }

  /** A walk extended by a walk from where it left the triggers, on a log
      that grows by appending. */
  lemma FollowsExtend(s: Sources, log0: seq<Event>, log1: seq<Event>, log2: seq<Event>,
                      src1: Sources, src2: Sources, lines: nat)
    requires log0 <= log1 <= log2
    requires Follows(s, log1[|log0|..], src1, lines) && Follows(src1, log2[|log1|..], src2, lines)
    ensures Follows(s, log2[|log0|..], src2, lines)
  {
    FollowsJoin(s, log1[|log0|..], src1, log2[|log1|..], src2, lines);
    assert log2[|log0|..] == log1[|log0|..] + log2[|log1|..];
  }

  /** One dispatch of a due interrupt, before `bound`, keeps the frame
      invariant and makes progress. */
  lemma DispatchStep(m: Machine, t: FrameTiming, maxRaster: int, bound: int)
    requires FrameInv(m, t, maxRaster)
    requires m.src.irqCycles < bound <= t.DisplayEnd()
    requires m.total >= m.src.irqCycles
    requires m.store.count < maxRaster
    ensures FrameInv(DoIrq(m, t), t, maxRaster)
    ensures Pending(DoIrq(m, t).src, t.lines) < Pending(m.src, t.lines)
    ensures DoIrq(m, t).log == m.log + [BeamSync(m.src.irqLine, m.src.irqCycles, m.total)]
  {
    PhaseOrder(t);
    var line := m.src.irqLine;
    assert Armed(m.src, t.lines);
    DueBeforeLine(t, line, DisplayLines);
    var r := DoIrq(m, t);
    LogStep(m.log, t, line, m.src.irqCycles, m.total, r.total, Next(r.src));
    StoreStep(m.store, r.store, m.log, line, m.src.irqCycles, m.total, maxRaster, t);
  }

  /** Lines 328-329: run the CPU up to the scheduled interrupt, then DoIRQ.
      The interrupt logged is the one scheduled, the frame invariant is
      kept, and the sources move on by DoIRQ's rule. */
  method DispatchScheduled(m: Machine, t: FrameTiming, maxRaster: int, next: int) returns (r: Machine)
    requires FrameInv(m, t, maxRaster)
    requires m.src.irqCycles < next <= t.DisplayEnd() && m.store.count < maxRaster
    ensures FrameInv(r, t, maxRaster)
    ensures Pending(r.src, t.lines) < Pending(m.src, t.lines)
    ensures r.total >= m.total && r.carry == m.carry
    ensures r.store.count == m.store.count + (if m.src.irqLine >= FirstLine then 1 else 0)
    ensures m.log <= r.log && |r.log| == |m.log| + 1
    ensures r.log[|m.log|].BeamSync? && r.log[|m.log|].line == m.src.irqLine
    ensures r.log[|m.log|].due == m.src.irqCycles
    // the sources move by the rule of lines 236-251 and the next interrupt
    // is the lower armed line at its cycle, pushed past the total only when
    // already overdue
    ensures SameTriggers(AdvanceSources(m.src, t.lines), r.src)
    ensures Armed(r.src, t.lines) ==>
              var due := t.LineCycle(Next(r.src));
              r.src.irqLine == Next(r.src) && r.src.irqCycles == (if due < r.total then r.total + 1 else due)
    ensures r.src.irqCycles >= r.total
    ensures Exact(m.bursts) ==> Exact(r.bursts)
    ensures Exact(m.bursts) && m.total <= m.src.irqCycles ==> r.total == m.src.irqCycles + t.Scanline()
    ensures Exact(m.bursts) && Settled(m, t) ==> Settled(r, t)
  {
    var ran := Run(m, m.src.irqCycles - m.total);
    DispatchStep(ran, t, maxRaster, next);
    r := DoIrq(ran, t);
  }

  /** One turn of the segment loop (lines 328-329), seen from the frame:
      the interrupt dispatched is the first firing of the lower armed line,
      and a single repeating source moves 32 lines on. */
  method DispatchDue(m: Machine, t: FrameTiming, maxRaster: int, next: int) returns (r: Machine)
    requires FrameInv(m, t, maxRaster)
    requires m.src.irqCycles < next <= t.DisplayEnd() && m.store.count < maxRaster
    ensures FrameInv(r, t, maxRaster)
    ensures Pending(r.src, t.lines) < Pending(m.src, t.lines)
    ensures r.total >= m.total && r.carry == m.carry && r.store.count >= m.store.count
    ensures m.log <= r.log && |r.log| == |m.log| + 1 && r.log[|m.log|].line == m.src.irqLine
    // the interrupt dispatched is the one due before `next`
    ensures r.log[|m.log|].due == m.src.irqCycles
    ensures Follows(m.src, r.log[|m.log|..], r.src, t.lines)
    ensures Exact(m.bursts) && Settled(m, t) ==> Exact(r.bursts) && Settled(r, t)
    ensures Repeating(m, t, maxRaster) ==>
              Repeating(r, t, maxRaster) && r.src.line50 == m.src.line50 + RepeatStep
  {
    r := DispatchScheduled(m, t, maxRaster, next);
    PhaseOrder(t);
    assert Armed(m.src, t.lines);
    FollowsStep(m.src, [], m.src, r.src, r.log[|m.log|], t.lines);
    assert r.log[|m.log|..] == [] + [r.log[|m.log|]];
    if Repeating(m, t, maxRaster) {
      RepeatingDispatch(m, r, t, maxRaster);
    }
  }

  /** The lead-in dispatch: run the CPU for the interrupt's cycle count, then
      DoIRQ. */
  lemma LeadInDispatch(m: Machine, t: FrameTiming, maxRaster: int)
    requires FrameInv(m, t, maxRaster) && m.store.count == 0 && m.log == []
    requires m.src.irqCycles < t.LeadInEnd()
    ensures var r := DoIrq(Run(m, m.src.irqCycles), t);
            && FrameInv(r, t, maxRaster)
            && r.store.count == 0 && r.total >= m.total && r.carry == m.carry
            && |r.log| == 1 && r.log[0].line == m.src.irqLine < FirstLine && r.log[0].due == m.src.irqCycles
            && Follows(m.src, r.log, r.src, t.lines)
            && (Exact(m.bursts) && m.total <= t.Scanline() ==> Exact(r.bursts) && r.total <= t.DisplayEnd())
  {
    PhaseOrder(t);
    LeadInRoom(t);
    var ran := Run(m, m.src.irqCycles);
    DispatchStep(ran, t, maxRaster, t.LeadInEnd());
    DueBeforeLine(t, ran.src.irqLine, FirstLine);
    var r := DoIrq(ran, t);
    assert Armed(m.src, t.lines);
    FollowsStep(m.src, [], m.src, r.src, r.log[0], t.lines);
  }

  /** Logging the dispatch of `line`, due at cycle `due`, at cycle `total`. */
  lemma LogStep(log: seq<Event>, t: FrameTiming, line: nat, due: int, total: int, total': int, next': int)
    requires t.Valid() && RasterLog(log, t) && LogBefore(log, total, line)
    requires line < DisplayLines && total >= t.LineCycle(line)
    requires due < t.DisplayEnd() && due <= total
    requires total' >= total && next' > line
    ensures RasterLog(log + [BeamSync(line, due, total)], t)
    ensures LogBefore(log + [BeamSync(line, due, total)], total', next')
  {
  }

  /** Recording the dispatch of `line` in the snapshot store. */
  lemma StoreStep(st: Store, st': Store, log: seq<Event>, line: nat, due: int, total: int, maxRaster: int, t: FrameTiming)
    requires t.Valid() && StoreMatches(st, log, maxRaster) && RasterLog(log, t)
    requires LogBefore(log, total, line) && line < DisplayLines
    requires line >= FirstLine ==> st.count < maxRaster
    requires Shaped(st') && |st'.rasterline| == |st.rasterline|
    requires st'.count == st.count + (if line >= FirstLine then 1 else 0)
    requires var k := st'.count;
             var due := if line >= FirstLine then line - FirstLine else st.rasterline[k];
             && (due < ActiveLines ==> st'.rasterline[k] == due)
             && (due >= ActiveLines ==> st'.rasterline[k] == 0)
    requires forall j | 0 <= j < |st.rasterline| && j != st'.count :: st'.rasterline[j] == st.rasterline[j]
    ensures StoreMatches(st', log + [BeamSync(line, due, total)], maxRaster)
  {
    var e := BeamSync(line, due, total);
    RecordedAppend(log, e);
    RecordedInDisplay(log, t);
    var c := st.count;
    if line >= FirstLine {
      assert st'.rasterline[c + 1] == line - FirstLine;
      assert st'.rasterline[1..c + 2] == st.rasterline[1..c + 1] + [line - FirstLine];
    } else {
      // an interrupt above the first visible line comes before any recorded one
      assert c == 0 by {
        if c > 0 {
          assert false;
        }
      }
      assert st'.rasterline == st.rasterline;
    }
  }

  /** The frame-start image arms source 0x50 alone, auto-repeating from a
      visible line, and leaves source 0x52 parked as a one-shot. */
  predicate SingleRepeat(img: Image, lines: nat) {
    && AutoRepeat(img.raster1) && FirstLine <= LineField(img.raster1)
    && !AutoRepeat(img.raster2) && DecodeTrigger(img.ctrl, img.raster2, lines).line >= lines
  }

  /** Between dispatches of a frame in which only source 0x50 repeats and
      the CPU is exact: the interrupts logged so far lie 32, 64, ... lines
      above the source's current line, each took a slot, the next interrupt
      is due exactly at its line's cycle, and the CPU has not passed it
      unless the store is full. */
  predicate Repeating(m: Machine, t: FrameTiming, maxRaster: int)
    requires t.Valid()
  {
    && Exact(m.bursts)
    && m.src.auto50 && !m.src.auto52 && m.src.line52 >= t.lines
    && m.src.line50 >= FirstLine + RepeatStep * |m.log|
    && (forall i | 0 <= i < |m.log| ::
          m.log[i].BeamSync? && m.log[i].line + RepeatStep * (|m.log| - i) == m.src.line50)
    && m.store.count == |m.log|
    && (m.src.line50 < t.lines ==> m.src.irqCycles == t.LineCycle(m.src.line50))
    && (m.total <= m.src.irqCycles || m.store.count == maxRaster)
  }

  /** A dispatch in a frame where only source 0x50 repeats logs its line
      and moves it 32 lines on, due exactly at the new line's cycle. `r` is
      any machine that the dispatch of lines 328-329 can leave. */
  lemma RepeatingDispatch(m: Machine, r: Machine, t: FrameTiming, maxRaster: int)
    requires FrameInv(m, t, maxRaster) && Repeating(m, t, maxRaster)
    requires m.src.irqCycles < t.DisplayEnd() && m.store.count < maxRaster
    requires Exact(r.bursts) && r.total == m.src.irqCycles + t.Scanline()
    requires r.store.count == m.store.count + (if m.src.irqLine >= FirstLine then 1 else 0)
    requires m.log <= r.log && |r.log| == |m.log| + 1
    requires r.log[|m.log|].BeamSync? && r.log[|m.log|].line == m.src.irqLine
    requires SameTriggers(AdvanceSources(m.src, t.lines), r.src) && r.src.irqCycles >= r.total
    requires Armed(r.src, t.lines) ==>
               var due := t.LineCycle(Next(r.src));
               r.src.irqLine == Next(r.src) && r.src.irqCycles == (if due < r.total then r.total + 1 else due)
    ensures Repeating(r, t, maxRaster) && r.src.line50 == m.src.line50 + RepeatStep
  {
    PhaseOrder(t);
    var l := m.src.line50;
    assert Armed(m.src, t.lines);
    assert m.src.irqLine == l;
    DueBeforeLine(t, l, DisplayLines);
    assert r.src.line50 == l + RepeatStep && r.src.line52 == m.src.line52;
    if l + RepeatStep < t.lines {
      LineStartStep(t, l, l + RepeatStep);
      assert Next(r.src) == l + RepeatStep;
    }
    assert forall i | 0 <= i < |m.log| :: r.log[i] == m.log[i];
  }

  /** The frame-start decode of an image that arms source 0x50 alone: its
      line is taken from the word, and its interrupt is due exactly at that
      line's cycle, after the lead-in. */
  lemma StartRepeating(s: Sources, img: Image, t: FrameTiming)
    requires t.Valid() && SingleRepeat(img, t.lines)
    ensures var r := StartSources(s, img, t);
            && r.auto50 && !r.auto52 && r.line52 >= t.lines && r.line50 == LineField(img.raster1)
            && (r.line50 < t.lines ==> r.irqCycles == t.LineCycle(r.line50))
            && r.irqCycles > t.LeadInEnd()
  {
    PhaseOrder(t);
    var r := StartSources(s, img, t);
    if r.line50 < t.lines {
      assert Armed(r, t.lines) && Next(r) == r.line50;
      LineStartMonotone(t, FirstLine, r.line50);
    }
  }

  /** The lines logged while only source 0x50 repeats, counted from the
      line it started on. */
  lemma RepeatingFrom(m: Machine, t: FrameTiming, maxRaster: int, first: int)
    requires t.Valid() && Repeating(m, t, maxRaster) && m.src.line50 == first + RepeatStep * |m.log|
    ensures forall i | 0 <= i < |m.log| :: m.log[i].line == first + RepeatStep * i
  {
  }

  /** At the end of the active display of a frame where only source 0x50
      repeats, its line lies past the display: either the store filled up
      after seven visible lines, or its interrupt is not due before the
      display ends, which with two or more cycles a scanline means its line
      is not before 240. */
  lemma RepeatingComplete(m: Machine, t: FrameTiming, maxRaster: int)
    requires FrameInv(m, t, maxRaster) && Repeating(m, t, maxRaster)
    requires m.src.irqCycles >= t.DisplayEnd() || m.store.count == maxRaster
    requires maxRaster >= 7 && t.Scanline() >= 2
    ensures m.src.line50 >= DisplayLines
  {
    var l := m.src.line50;
    if m.store.count != maxRaster && l < DisplayLines {
      LineStartMonotone(t, l, DisplayLines - 1);
      LineStartStep(t, DisplayLines - 1, DisplayLines);
      assert false;
    }
  }

  /** The lead-in (lines 306-313): an interrupt due before the first visible
      line is dispatched once, then the CPU runs on to that line. Such an
      interrupt belongs to a line above the first visible one, so the
      counter stays at zero. */
  method LeadIn(m: Machine, t: FrameTiming, maxRaster: int) returns (r: Machine)
    requires FrameInv(m, t, maxRaster) && m.store.count == 0 && m.log == []
    ensures FrameInv(r, t, maxRaster)
    ensures r.store.count == 0
    ensures r.total >= t.LeadInEnd() && r.total >= m.total && r.carry == m.carry
    ensures |r.log| <= 1
    ensures forall i | 0 <= i < |r.log| :: r.log[i].line < FirstLine && r.log[i].due < t.LeadInEnd()
    // an interrupt due before line 16 starts is dispatched, and otherwise
    // nothing happens
    ensures m.src.irqCycles < t.LeadInEnd() ==> |r.log| == 1 && r.log[0].line == m.src.irqLine
    ensures m.src.irqCycles >= t.LeadInEnd() ==> r.log == [] && r.src == m.src && r.store == m.store
    ensures Follows(m.src, r.log, r.src, t.lines)
    ensures Exact(m.bursts) && m.total <= t.Scanline() ==> Exact(r.bursts) && r.total <= t.DisplayEnd()
    ensures Exact(m.bursts) && m.total <= t.LeadInEnd() <= m.src.irqCycles ==> r.total == t.LeadInEnd()
  {
    PhaseOrder(t);
    LeadInRoom(t);
    r := m;
    if r.src.irqCycles < t.LeadInEnd() {
      LeadInDispatch(r, t, maxRaster);
      r := DoIrq(Run(r, r.src.irqCycles), t);
    }
    var next := t.LeadInEnd();
    if r.total < next {
      r := Run(r, next - r.total);
    }
  }

  /** The dispatch loop of a segment (lines 327-330): dispatch every
      interrupt due before `next` while the store has room, running the CPU
      up to each one first. */
  method DispatchUntil(m: Machine, t: FrameTiming, maxRaster: int, next: int) returns (r: Machine)
    requires FrameInv(m, t, maxRaster) && next <= t.DisplayEnd()
    ensures FrameInv(r, t, maxRaster)
    ensures r.total >= m.total && r.carry == m.carry && r.store.count >= m.store.count
    // the loop stops only when the next interrupt is not due before `next`
    // or the store is full
    ensures r.src.irqCycles >= next || r.store.count == maxRaster
    ensures m.log <= r.log
    // and it dispatches only interrupts due before `next`
    ensures DueBefore(r.log, |m.log|, next)
    ensures m.src.irqCycles >= next ==> r == m
    ensures Exact(m.bursts) && Settled(m, t) ==> Exact(r.bursts) && Settled(r, t)
    ensures Repeating(m, t, maxRaster) ==>
              Repeating(r, t, maxRaster) && r.src.line50 == m.src.line50 + RepeatStep * (|r.log| - |m.log|)
    // the interrupts dispatched are the successive firings of the lower
    // armed line
    ensures Follows(m.src, r.log[|m.log|..], r.src, t.lines)
  {
    r := m;
    assert r.log[|m.log|..] == [];
    while next > r.src.irqCycles && r.store.count < maxRaster
      invariant FrameInv(r, t, maxRaster)
      invariant r.total >= m.total && r.carry == m.carry && r.store.count >= m.store.count
      invariant m.log <= r.log
      invariant DueBefore(r.log, |m.log|, next)
      invariant m.src.irqCycles >= next ==> r == m
      invariant Exact(m.bursts) && Settled(m, t) ==> Exact(r.bursts) && Settled(r, t)
      invariant Repeating(m, t, maxRaster) ==>
                  Repeating(r, t, maxRaster) && r.src.line50 == m.src.line50 + RepeatStep * (|r.log| - |m.log|)
      invariant Follows(m.src, r.log[|m.log|..], r.src, t.lines)
      decreases Pending(r.src, t.lines)
    {
      var prev := r;
      r := DispatchDue(r, t, maxRaster, next);
      DueBeforeStep(prev.log, r.log, |m.log|, next);
      FollowsExtend(m.src, m.log, prev.log, r.log, prev.src, r.src, t.lines);
    }
  }

  /** One third of the active display (lines 325-331): the dispatch loop,
      then run the CPU to `next`. */
  method RunSegment(m: Machine, t: FrameTiming, maxRaster: int, next: int) returns (r: Machine)
    requires FrameInv(m, t, maxRaster) && next <= t.DisplayEnd()
    ensures FrameInv(r, t, maxRaster)
    ensures r.total >= next && r.total >= m.total && r.carry == m.carry
    ensures r.src.irqCycles >= next || r.store.count == maxRaster
    ensures r.store.count >= m.store.count
    ensures m.log <= r.log
    ensures DueBefore(r.log, |m.log|, next)
    ensures m.src.irqCycles >= next ==> r.log == m.log && r.store == m.store && r.src == m.src
    ensures Exact(m.bursts) && Settled(m, t) ==> Exact(r.bursts) && Settled(r, t)
    ensures Repeating(m, t, maxRaster) ==>
              Repeating(r, t, maxRaster) && r.src.line50 == m.src.line50 + RepeatStep * (|r.log| - |m.log|)
    ensures Follows(m.src, r.log[|m.log|..], r.src, t.lines)
  {
    PhaseOrder(t);
    r := DispatchUntil(m, t, maxRaster, next);
    r := Run(r, next - r.total);
  }

  /** How many events follow a frame's raster interrupts: object capture,
      VBlank, and the draw unless the frame is skipped. */
  function TailLength(skip: bool): nat {
    if skip then 2 else 3
  }

  /** The log of a whole frame: its raster interrupts, then object capture,
      then VBlank (no earlier than the end of the active display nor any
      raster interrupt), then the draw unless the frame is skipped. */
  predicate FrameLog(log: seq<Event>, skip: bool, t: FrameTiming)
    requires t.Valid()
  {
    var n := |log| - TailLength(skip);
    && n >= 0
    && RasterLog(log[..n], t)
    && log[n] == ObjectsCaptured
    && log[n + 1].VBlank? && log[n + 1].cycle >= t.DisplayEnd()
    && (forall i | 0 <= i < n :: log[i].cycle <= log[n + 1].cycle)
    && (!skip ==> log[n + 2] == Drawn)
  }

  /** The raster lines the renderer reads: slot 0 is the baseline, slots 1
      to the counter hold strictly increasing lines of the active display,
      and the slots above are clear. */
  predicate RendererView(st: Store, log: seq<Event>, maxRaster: int) {
    && 0 <= st.count <= maxRaster
    && |st.rasterline| == maxRaster + 2
    && st.rasterline[0] == 0
    && st.rasterline[1..st.count + 1] == Recorded(log)
    && Increasing(st.rasterline[1..st.count + 1])
    && (forall k | 1 <= k <= st.count :: 0 <= st.rasterline[k] < ActiveLines)
    && (forall k | st.count < k < |st.rasterline| :: st.rasterline[k] == 0)
  }

  /** The first steps of a frame (lines 265-304): reset if asked,
      SekNewFrame, clear the raster lines, decode the trigger words and
      schedule, then idle away the previous frame's overrun. */
  method StartFrame(m: Machine, t: FrameTiming, maxRaster: int, reset: bool) returns (r: Machine)
    requires t.Valid() && Ready(m, t.lines, maxRaster)
    ensures FrameInv(r, t, maxRaster) && r.store.count == 0 && r.log == []
    ensures r.image == (if reset then ResetImage(m.image, t.lines) else m.image)
    ensures r.store.saved == m.store.saved && r.bursts == m.bursts
    ensures r.carry >= 0 && r.total == r.carry == (if reset then 0 else m.carry)
    ensures r.src == StartSources(m.src, r.image, t)
    ensures Disarmed(r.image, t.lines) ==> r.src.irqCycles > t.cycles
  {
    r := m;
    if reset {
      r := DrvReset(r, t.lines);
    }
    ghost var quiet := Disarmed(r.image, t.lines);
    // SekNewFrame, and the raster lines cleared
    r := r.(total := 0, log := [], store := Store(0, seq(maxRaster + 2, _ => 0), r.store.saved));
    r := r.(src := StartSources(r.src, r.image, t));
    assert quiet ==> r.src.irqCycles > t.cycles;
    r := Idle(r, r.carry);
  }

  /** The start of a frame up to the active display (lines 265-322): the
      first steps, the lead-in, the baseline copy and the re-arm guard. */
  method BeginFrame(m: Machine, t: FrameTiming, maxRaster: int, reset: bool) returns (r: Machine)
    requires t.Valid() && Ready(m, t.lines, maxRaster)
    ensures FrameInv(r, t, maxRaster) && r.store.count == 0
    // the baseline copy of the registers in slot 0
    ensures r.store.saved[0] == r.image
    ensures r.total >= t.LeadInEnd() && r.carry >= 0
    ensures Disarmed(if reset then ResetImage(m.image, t.lines) else m.image, t.lines) ==>
              r.log == [] && r.src.irqCycles > t.cycles
    ensures Exact(m.bursts) && (reset || m.carry <= t.Scanline()) ==> Exact(r.bursts) && Settled(r, t)
    ensures var img := if reset then ResetImage(m.image, t.lines) else m.image;
            Exact(m.bursts) && (reset || m.carry <= t.Scanline()) && SingleRepeat(img, t.lines) ==>
              Repeating(r, t, maxRaster) && r.src.line50 == LineField(img.raster1)
    // the lead-in dispatch is the first firing from the frame-start decode
    ensures var img := if reset then ResetImage(m.image, t.lines) else m.image;
            Follows(StartSources(m.src, img, t), r.log, r.src, t.lines)
  {
    PhaseOrder(t);
    r := StartFrame(m, t, maxRaster, reset);
    ghost var repeat := Exact(m.bursts) && (reset || m.carry <= t.Scanline()) && SingleRepeat(r.image, t.lines);
    if repeat {
      StartRepeating(m.src, r.image, t);
    }
    ghost var started := r;
    r := LeadIn(r, t, maxRaster);
    assert repeat ==> r.log == [] && r.src == started.src && r.total == t.LeadInEnd() < r.src.irqCycles;
    // the baseline copy in slot 0
    r := r.(store := r.store.(saved := r.store.saved[0 := r.image]));
    r := r.(src := Rearm(r.src, r.image, t));
  }

  /** The events after a frame's raster interrupts, VBlank stamped with
      `total`. */
  function Tail(total: int, skip: bool): (r: seq<Event>)
    ensures |r| == TailLength(skip)
  {
    [ObjectsCaptured, VBlank(total)] + (if skip then [] else [Drawn])
  }

  /** Closing the raster log with the tail events gives a frame log whose
      recorded lines are those of the raster interrupts. */
  lemma FrameTail(m: Machine, t: FrameTiming, maxRaster: int, skip: bool)
    requires FrameInv(m, t, maxRaster) && m.total >= t.DisplayEnd()
    ensures FrameLog(m.log + Tail(m.total, skip), skip, t)
    ensures RendererView(m.store, m.log + Tail(m.total, skip), maxRaster)
  {
    var raster := m.log;
    var log := raster + Tail(m.total, skip);
    assert log[..|raster|] == raster;
    RecordedInDisplay(raster, t);
    RecordedTail(raster, m.total, skip);
  }

  /** The tail events record no raster line. */
  lemma RecordedTail(raster: seq<Event>, total: int, skip: bool)
    ensures Recorded(raster + Tail(total, skip)) == Recorded(raster)
  {
    RecordedAppend(raster, ObjectsCaptured);
    RecordedAppend(raster + [ObjectsCaptured], VBlank(total));
    assert raster + [ObjectsCaptured] + [VBlank(total)] == raster + Tail(total, true);
    if !skip {
      RecordedAppend(raster + Tail(total, true), Drawn);
      assert raster + Tail(total, true) + [Drawn] == raster + Tail(total, skip);
    }
  }

  /** The end of a frame after the active display (lines 334-343): object
      capture, VBlank, the draw unless skipped, the drain to the end of the
      frame, and the drift carry. */
  method EndFrame(m: Machine, t: FrameTiming, maxRaster: int, skip: bool) returns (r: Machine)
    requires FrameInv(m, t, maxRaster) && m.total >= t.DisplayEnd()
    ensures FrameLog(r.log, skip, t) && m.log <= r.log && |r.log| == |m.log| + TailLength(skip)
    ensures r.log[..|m.log|] == m.log
    ensures RendererView(r.store, r.log, maxRaster)
    ensures r.store == m.store && r.src == m.src
    ensures r.total >= t.cycles && r.carry == r.total - t.cycles
    ensures Exact(m.bursts) && Settled(m, t) ==> r.carry <= t.Scanline()
  {
    PhaseOrder(t);
    FrameTail(m, t, maxRaster, skip);
    r := m.(log := m.log + Tail(m.total, skip));
    r := Run(r, t.cycles - r.total);
    r := r.(carry := r.total - t.cycles);
  }

  /** How far the active display has got after `i` passes of the loop at
      line 324, starting from `m`. */
  predicate DisplayPassed(m: Machine, r: Machine, t: FrameTiming, maxRaster: int, i: int)
    requires t.Valid()
  {
    && 0 <= i <= 3
    && FrameInv(r, t, maxRaster)
    && r.total >= m.total && r.carry == m.carry
    && (i > 0 ==> r.total >= t.SegmentEnd(i - 1))
    && (i > 0 ==> r.src.irqCycles >= t.SegmentEnd(i - 1) || r.store.count == maxRaster)
    && m.log <= r.log && r.store.count >= m.store.count
    && (i == 0 ==> r.log == m.log)
    && (i > 0 ==> DueBefore(r.log, |m.log|, t.SegmentEnd(i - 1)))
    && (m.src.irqCycles >= t.DisplayEnd() ==> r.log == m.log && r.store == m.store && r.src == m.src)
    && (Exact(m.bursts) && Settled(m, t) ==> Exact(r.bursts) && Settled(r, t))
    && (Repeating(m, t, maxRaster) ==>
          Repeating(r, t, maxRaster) && r.src.line50 == m.src.line50 + RepeatStep * (|r.log| - |m.log|))
    && Follows(m.src, r.log[|m.log|..], r.src, t.lines)
  }

  /** Pass `i` of the loop at line 324: the segment ending at
      `(i + 1) * nDisplayEnd / 3`. */
  method DisplayPass(m: Machine, r: Machine, t: FrameTiming, maxRaster: int, i: int) returns (r': Machine)
    requires t.Valid() && DisplayPassed(m, r, t, maxRaster, i) && i < 3
    ensures DisplayPassed(m, r', t, maxRaster, i + 1)
  {
    SegmentsInDisplay(t, i);
    r' := RunSegment(r, t, maxRaster, t.SegmentEnd(i));
    FollowsExtend(m.src, m.log, r.log, r'.log, r.src, r'.src, t.lines);
  }

  /** The active display (lines 324-332): three segments, each ending a
      third of the way further through it. */
  method ActiveDisplay(m: Machine, t: FrameTiming, maxRaster: int) returns (r: Machine)
    requires FrameInv(m, t, maxRaster)
    ensures FrameInv(r, t, maxRaster)
    ensures r.total >= t.DisplayEnd() && r.total >= m.total && r.carry == m.carry
    // every interrupt due before the end of the display was dispatched,
    // unless the store filled up
    ensures r.src.irqCycles >= t.DisplayEnd() || r.store.count == maxRaster
    // and only interrupts due before it were dispatched
    ensures DueBefore(r.log, |m.log|, t.DisplayEnd())
    ensures m.log <= r.log && r.store.count >= m.store.count
    ensures m.src.irqCycles >= t.DisplayEnd() ==> r.log == m.log && r.store == m.store && r.src == m.src
    ensures Exact(m.bursts) && Settled(m, t) ==> Exact(r.bursts) && Settled(r, t)
    ensures Repeating(m, t, maxRaster) ==>
              Repeating(r, t, maxRaster) && r.src.line50 == m.src.line50 + RepeatStep * (|r.log| - |m.log|)
    ensures Follows(m.src, r.log[|m.log|..], r.src, t.lines)
  {
    r := m;
    assert r.log[|m.log|..] == [];
    var i := 0;
    while i < 3
      invariant DisplayPassed(m, r, t, maxRaster, i)
    {
      r := DisplayPass(m, r, t, maxRaster, i);
      i := i + 1;
    }
    SegmentsInDisplay(t, 2);
  }

  /** The part of a frame that raises raster interrupts (lines 265-332):
      from the optional reset to the end of the active display. */
  method RasterPhase(m: Machine, t: FrameTiming, maxRaster: int, reset: bool) returns (r: Machine)
    requires t.Valid() && Ready(m, t.lines, maxRaster)
    ensures FrameInv(r, t, maxRaster) && r.total >= t.DisplayEnd() && r.carry >= 0
    // every interrupt due before the end of the active display was
    // dispatched, unless the store filled up
    ensures r.src.irqCycles >= t.DisplayEnd() || r.store.count == maxRaster
    ensures Exact(m.bursts) && (reset || m.carry <= t.Scanline()) ==> Exact(r.bursts) && Settled(r, t)
    ensures var img := if reset then ResetImage(m.image, t.lines) else m.image;
            Exact(m.bursts) && (reset || m.carry <= t.Scanline()) && SingleRepeat(img, t.lines)
              && maxRaster >= 7 && t.Scanline() >= 2 ==>
              && (forall i | 0 <= i < |r.log| :: r.log[i].line == LineField(img.raster1) + RepeatStep * i)
              && LineField(img.raster1) + RepeatStep * |r.log| >= DisplayLines
              && r.store.count == |r.log|
    ensures var img := if reset then ResetImage(m.image, t.lines) else m.image;
            Follows(StartSources(m.src, img, t), r.log, r.src, t.lines)
    ensures Disarmed(if reset then ResetImage(m.image, t.lines) else m.image, t.lines) ==>
              r.store.count == 0 && r.log == []
  {
    ghost var img := if reset then ResetImage(m.image, t.lines) else m.image;
    ghost var repeat := Exact(m.bursts) && (reset || m.carry <= t.Scanline()) && SingleRepeat(img, t.lines);
    PhaseOrder(t);
    r := BeginFrame(m, t, maxRaster, reset);
    ghost var begun := r;
    r := ActiveDisplay(r, t, maxRaster);
    FollowsPrefix(StartSources(m.src, img, t), begun.log, begun.src, r.log, r.src, t.lines);
    if repeat && maxRaster >= 7 && t.Scanline() >= 2 {
      RepeatingComplete(r, t, maxRaster);
      RepeatingFrom(r, t, maxRaster, LineField(img.raster1));
    }
  }

  /** Cps2Frame: run one video frame. `reset` is CpsReset, `skip` is
      nSkipFrame, `maxRaster` is MAX_RASTER. */
  method Cps2Frame(m: Machine, t: FrameTiming, maxRaster: int, reset: bool, skip: bool) returns (r: Machine)
    requires t.Valid() && Ready(m, t.lines, maxRaster)
    ensures Ready(r, t.lines, maxRaster)
    ensures FrameLog(r.log, skip, t)
    ensures RendererView(r.store, r.log, maxRaster)
    // every interrupt due before the end of the active display was
    // dispatched, unless the store filled up; FrameLog states the converse,
    // that each one dispatched was due before it
    ensures r.src.irqCycles >= t.DisplayEnd() || r.store.count == maxRaster
    // the drift carry
    ensures r.total >= t.cycles && r.carry == r.total - t.cycles
    ensures Exact(m.bursts) && (reset || m.carry <= t.Scanline()) ==> r.carry <= t.Scanline()
    // with source 0x50 alone repeating from line L, an exact CPU, a carry of
    // at most one scanline (or a reset) and room for seven snapshots, the
    // frame dispatches exactly the lines L + 32i before 240
    ensures var img := if reset then ResetImage(m.image, t.lines) else m.image;
            var k := |r.log| - TailLength(skip);
            Exact(m.bursts) && (reset || m.carry <= t.Scanline()) && SingleRepeat(img, t.lines)
              && maxRaster >= 7 && t.Scanline() >= 2 ==>
              && (forall i | 0 <= i < k :: r.log[i].line == LineField(img.raster1) + RepeatStep * i)
              && LineField(img.raster1) + RepeatStep * k >= DisplayLines
              && r.store.count == k
    // the interrupts dispatched are the successive firings of the lower
    // armed line, from the sources the frame-start decode sets up
    ensures var img := if reset then ResetImage(m.image, t.lines) else m.image;
            Follows(StartSources(m.src, img, t), r.log[..|r.log| - TailLength(skip)], r.src, t.lines)
    // with both sources disarmed nothing is dispatched
    ensures Disarmed(if reset then ResetImage(m.image, t.lines) else m.image, t.lines) ==>
              r.store.count == 0 && |r.log| == TailLength(skip)
  {
    r := RasterPhase(m, t, maxRaster, reset);
    ghost var raster := r.log;
    r := EndFrame(r, t, maxRaster, skip);
    assert |r.log| - TailLength(skip) == |raster|;
  }
}

=== FILE: registers.dfy ===
/** The CPS-B register words that control beam-synchronised interrupts, and
    the register image that raster snapshots copy.

    Word 0x4E: bit 9 set means beam-synchronised interrupts are disabled.
    Words 0x50 and 0x52: the two trigger sources; bit 15 asks for an
    interrupt every 32 scanlines, bits 0-8 hold the trigger line.
    The words are taken as already byte-swapped 16-bit values; bits are
    read with division and remainder by powers of two. */
module Registers {

  newtype Word16 = x: int | 0 <= x < 0x10000

  /** The hardware register state a snapshot captures: the three decoded
      control words, the rest of the 0x100-byte CpsReg block, and the 16-byte
      CpsFrg block. */
  datatype Image = Image(ctrl: Word16, raster1: Word16, raster2: Word16, rest: seq<bv8>, frg: seq<bv8>)

  /** A decoded trigger source: its auto-repeat flag and trigger line. */
  datatype Trigger = Trigger(auto: bool, line: nat)

  /** Bit 15 of a trigger word. */
  predicate AutoRepeat(word: Word16) {
    (word / 0x8000) % 2 == 1
  }

  /** Bits 0-8 of a trigger word. */
  function LineField(word: Word16): nat {
    (word % 0x200) as nat
  }

  /** Bit 9 of the control word. */
  predicate BeamSyncDisabled(ctrl: Word16) {
    (ctrl / 0x200) % 2 == 1
  }

  /** The word a program writes to arm a source at `line`. */
  function EncodeTrigger(auto: bool, line: nat): (w: Word16)
    requires line < 0x200
    ensures AutoRepeat(w) == auto
    ensures LineField(w) == line
  {
    (if auto then 0x8000 else 0) + line as Word16
  }

  /** How a frame reads one trigger source at its start: an auto-repeating
      source, or any source while beam sync is enabled, takes the line
      field; otherwise the source is parked at `lines`, past the last
      scanline. */
  function DecodeTrigger(ctrl: Word16, word: Word16, lines: nat): (r: Trigger)
    ensures r.auto == AutoRepeat(word)
    ensures r.line < 0x200 || r.line == lines
    ensures r.line != lines ==> r.auto || !BeamSyncDisabled(ctrl)
    ensures (r.auto || !BeamSyncDisabled(ctrl)) ==> r.line == LineField(word)
  {
    var auto := AutoRepeat(word);
    if auto || !BeamSyncDisabled(ctrl) then Trigger(auto, LineField(word)) else Trigger(auto, lines)
  }

  /** A 16-bit store of `x`, keeping its low 16 bits. */
  function Word(x: nat): (w: Word16)
    ensures w as int == x % 0x10000
  {
    (x % 0x10000) as Word16
  }

  /** The beam-sync words as the machine reset writes them: the control word
      disables beam sync and both sources hold the scanline count. */
  function ResetImage(img: Image, lines: nat): (r: Image)
    ensures BeamSyncDisabled(r.ctrl)
    ensures r.raster1 as int == r.raster2 as int == lines % 0x10000
    ensures r.rest == img.rest && r.frg == img.frg
    ensures lines < 0x8000 ==>
              && DecodeTrigger(r.ctrl, r.raster1, lines) == Trigger(false, lines)
              && DecodeTrigger(r.ctrl, r.raster2, lines) == Trigger(false, lines)
  {
    var w := Word(lines);
    img.(ctrl := 0x0200, raster1 := w, raster2 := w)
  }
}

=== FILE: scheduler.dfy ===
/** The beam-synchronised interrupt scheduler: the two trigger sources, the
    choice of the next interrupt, how a dispatch moves the sources on, and
    the frame-start decode of the trigger words. */
module Scheduler {
  import opened Timing
  import opened Registers

  /** The scheduler's state: the trigger lines of sources 0x50 and 0x52
      (nIrqLine50, nIrqLine52), their auto-repeat flags (bEnableAutoIrq50,
      bEnableAutoIrq52), and the interrupt scheduled next (nIrqLine,
      nIrqCycles). `irqLine` survives from frame to frame. */
  datatype Sources = Sources(
    line50: nat,
    line52: nat,
    auto50: bool,
    auto52: bool,
    irqLine: nat,
    irqCycles: int)

  function Min(a: nat, b: nat): nat {
    if a <= b then a else b
  }

  /** The lower of the two trigger lines. */
  function Next(s: Sources): nat {
    Min(s.line50, s.line52)
  }

  /** Some source still triggers before the end of the frame. */
  predicate Armed(s: Sources, lines: int) {
    Next(s) < lines
  }

  /** The triggers and auto-repeat flags agree; only the scheduled interrupt
      may differ. */
  predicate SameTriggers(s: Sources, r: Sources) {
    r.line50 == s.line50 && r.line52 == s.line52 && r.auto50 == s.auto50 && r.auto52 == s.auto52
  }

  /** What the scheduler keeps true between dispatches: the scheduled line is
      on screen; when a source is armed, the scheduled interrupt is the lower
      trigger line and is due no earlier than that line's cycle; otherwise
      nothing is due within the frame. */
  predicate Scheduled(s: Sources, t: FrameTiming)
    requires t.Valid()
  {
    && s.irqLine < t.lines
    && if Armed(s, t.lines) then s.irqLine == Next(s) && s.irqCycles >= t.LineCycle(s.irqLine)
       else s.irqCycles > t.cycles
  }

  /** ScheduleIRQ: pick the lower trigger line (0x50 wins a tie) and convert
      it to a cycle; with no line before the end of the frame, schedule past
      the frame and keep the old line. */
  function ScheduleIrq(s: Sources, t: FrameTiming): (r: Sources)
    requires t.Valid()
    ensures SameTriggers(s, r)
    ensures Armed(s, t.lines) ==>
              && r.irqLine <= s.line50 && r.irqLine <= s.line52
              && (r.irqLine == s.line50 || r.irqLine == s.line52)
              && r.irqCycles == t.LineCycle(r.irqLine)
              && 1 <= r.irqCycles <= t.cycles
    ensures !Armed(s, t.lines) ==> r.irqLine == s.irqLine && r.irqCycles == t.cycles + 1
    ensures s.irqLine < t.lines ==> Scheduled(r, t)
  {
    var line: nat := t.lines;
    var line: nat := if s.line50 <= line then s.line50 else line;
    var line: nat := if s.line52 < line then s.line52 else line;
    if line < t.lines then
      LineCycleInFrame(t, line);
      s.(irqLine := line, irqCycles := t.LineCycle(line))
    else
      s.(irqCycles := t.cycles + 1)
  }

  /** The forward-progress fix-up after a dispatch: an interrupt due before
      the cycles already executed is moved to just after them. An interrupt
      due exactly at the executed total is left where it is. */
  function FixUp(s: Sources, total: int): (r: Sources)
    ensures r.irqCycles >= total && r.irqCycles >= s.irqCycles
    ensures r.irqCycles == s.irqCycles || r.irqCycles == total + 1
    ensures s.irqCycles >= total ==> r == s
    ensures r == s.(irqCycles := r.irqCycles)
  {
    if s.irqCycles < total then s.(irqCycles := total + 1) else s
  }

  lemma FixUpKeepsSchedule(s: Sources, total: int, t: FrameTiming)
    requires t.Valid() && Scheduled(s, t)
    ensures Scheduled(FixUp(s, total), t)
  {
  }

  /** Source 0x50 after the interrupt at line `fired`, as lines 236-244 write
      it: a one-shot source at or above the fired line is spent for the
      frame; an auto-repeating source on the fired line moves 32 lines down
      the screen; every other source keeps its line. */
  function AdvanceSource50(auto: bool, line: nat, fired: nat, lines: nat): (r: nat)
    ensures !auto && line <= fired ==> r == lines
    ensures auto ==> r == line || r == line + RepeatStep
    ensures auto && line == fired ==> r == line + RepeatStep
    ensures auto && line != fired ==> r == line
    ensures line > fired ==> r == line
    ensures line == fired && fired < lines ==> r > line
  {
    if !auto then
      if fired >= line then lines else line
    else
      if auto && fired == line then line + RepeatStep else line
  }

  /** Source 0x52 after the interrupt at line `fired`, as lines 245-251 write
      it, with the one-shot test folded into the first condition. */
  function AdvanceSource52(auto: bool, line: nat, fired: nat, lines: nat): (r: nat)
    ensures !auto && line <= fired ==> r == lines
    ensures auto ==> r == line || r == line + RepeatStep
    ensures auto && line == fired ==> r == line + RepeatStep
    ensures auto && line != fired ==> r == line
    ensures line > fired ==> r == line
    ensures line == fired && fired < lines ==> r > line
  {
    if !auto && fired >= line then lines
    else if auto && fired == line then line + RepeatStep
    else line
  }

  /** The two differently written branches compute the same thing. */
  lemma SourceBranchesAgree(auto: bool, line: nat, fired: nat, lines: nat)
    ensures AdvanceSource50(auto, line, fired, lines) == AdvanceSource52(auto, line, fired, lines)
  {
  }

  /** How far a trigger line still is from the end of the frame. */
  function Gap(line: nat, lines: nat): nat {
    if line < lines then lines - line else 0
  }

  /** The scanlines the sources have still to travel this frame: the
      measure every dispatch decreases. */
  function Pending(s: Sources, lines: nat): nat {
    Gap(s.line50, lines) + Gap(s.line52, lines)
  }

  /** Both sources after the interrupt at `s.irqLine`. When that interrupt is
      the lower armed trigger, the sources travel strictly down the screen and
      the next trigger lies strictly below the one that fired. */
  function AdvanceSources(s: Sources, lines: nat): (r: Sources)
    ensures r.auto50 == s.auto50 && r.auto52 == s.auto52
    ensures r.irqLine == s.irqLine && r.irqCycles == s.irqCycles
    ensures r.line50 >= s.line50 || r.line50 == lines
    ensures r.line52 >= s.line52 || r.line52 == lines
    ensures s.irqLine == Next(s) < lines ==>
              Pending(r, lines) < Pending(s, lines) && Next(r) > s.irqLine
  {
    s.(line50 := AdvanceSource50(s.auto50, s.line50, s.irqLine, lines),
       line52 := AdvanceSource52(s.auto52, s.line52, s.irqLine, lines))
  }

  /** The sources after their lower armed line fires: DoIRQ's update seen
      on the trigger lines alone. */
  function Fire(s: Sources, lines: nat): (r: Sources)
    ensures r.auto50 == s.auto50 && r.auto52 == s.auto52
    ensures Next(s) < lines ==> Pending(r, lines) < Pending(s, lines) && Next(r) > Next(s)
  {
    AdvanceSources(s.(irqLine := Next(s)), lines)
  }

  /** Firing depends on the trigger lines and flags alone. */
  lemma FireSameTriggers(a: Sources, b: Sources, lines: nat)
    requires SameTriggers(a, b)
    ensures SameTriggers(Fire(a, lines), Fire(b, lines))
  {
  }

  /** The frame-start decode of words 0x4E, 0x50 and 0x52 followed by the
      first ScheduleIRQ (lines 288-302). */
  function StartSources(s: Sources, img: Image, t: FrameTiming): (r: Sources)
    requires t.Valid()
    ensures r.auto50 == AutoRepeat(img.raster1) && r.auto52 == AutoRepeat(img.raster2)
    ensures r.line50 == DecodeTrigger(img.ctrl, img.raster1, t.lines).line
    ensures r.line52 == DecodeTrigger(img.ctrl, img.raster2, t.lines).line
    ensures Armed(r, t.lines) ==> r.auto50 || r.auto52 || !BeamSyncDisabled(img.ctrl)
    ensures Armed(r, t.lines) ==> r.irqLine == Next(r) && r.irqCycles == t.LineCycle(r.irqLine)
    ensures s.irqLine < t.lines ==> Scheduled(r, t)
  {
    var a := DecodeTrigger(img.ctrl, img.raster1, t.lines);
    var b := DecodeTrigger(img.ctrl, img.raster2, t.lines);
    ScheduleIrq(s.(line50 := a.line, line52 := b.line, auto50 := a.auto, auto52 := b.auto), t)
  }

  /** The re-arm guard after the baseline snapshot (lines 318-322): when the
      scheduled line lies past the last scanline and beam sync is enabled,
      the trigger lines are read again from the register words. The
      scheduled line is only ever set below the scanline count, so while
      that count stays fixed the guard never fires. */
  function Rearm(s: Sources, img: Image, t: FrameTiming): (r: Sources)
    requires t.Valid()
    ensures !(s.irqLine >= t.lines && !BeamSyncDisabled(img.ctrl)) ==> r == s
    ensures s.irqLine >= t.lines && !BeamSyncDisabled(img.ctrl) ==>
              && r.line50 == LineField(img.raster1) && r.line52 == LineField(img.raster2)
              && r.auto50 == s.auto50 && r.auto52 == s.auto52
              && (Armed(r, t.lines) ==> Scheduled(r, t) && r.irqCycles == t.LineCycle(r.irqLine))
              && (!Armed(r, t.lines) ==> r.irqLine == s.irqLine && r.irqCycles == t.cycles + 1)
  {
    if s.irqLine >= t.lines && !BeamSyncDisabled(img.ctrl) then
      ScheduleIrq(s.(line50 := LineField(img.raster1), line52 := LineField(img.raster2)), t)
    else
      s
  }
}

=== FILE: timing.dfy ===
/** Frame timing of the main 68000: how many CPU cycles one video frame lasts,
    and how a scanline number is turned into a cycle count and back.
    All divisions are of non-negative values, where C's truncating `/` and
    Dafny's Euclidean `/` agree. */
module Timing {

  /** The first visible scanline of the display (nFirstLine). */
  const FirstLine: int := 0x10
  /** Number of scanlines in the active display. */
  const ActiveLines: int := 224
  /** The scanline at which the active display ends and VBlank begins. */
  const DisplayLines: int := FirstLine + ActiveLines
  /** An auto-repeating interrupt source re-triggers this many scanlines later. */
  const RepeatStep: int := 32

  /** `cycles` is nCpsCycles (68000 cycles in this frame), `lines` is
      nCpsNumScanlines. */
  datatype FrameTiming = FrameTiming(cycles: int, lines: int)
  {
    predicate Valid() {
      cycles > 0 && lines >= DisplayLines
    }

    /** One scanline's worth of cycles. */
    function Scanline(): nat
      requires Valid()
    {
      cycles / lines
    }

    /** The cycle at which a beam-synchronised interrupt for `line` is due. */
    function LineCycle(line: nat): nat
      requires Valid()
    {
      LineStart(line) + 1
    }

    /** The cycle at which `line` begins. */
    function LineStart(line: nat): nat
      requires Valid()
    {
      line * cycles / lines
    }

    /** The cycle at which the first visible scanline begins. */
    function LeadInEnd(): nat
      requires Valid()
    {
      LineStart(FirstLine)
    }

    /** The cycle at which the active display ends (nDisplayEnd). */
    function DisplayEnd(): nat
      requires Valid()
    {
      LineStart(DisplayLines)
    }

    /** The end of the i-th third of the active display. */
    function SegmentEnd(i: nat): int
      requires Valid()
    {
      (i + 1) * DisplayEnd() / 3
    }
  }

  lemma MulMonotone(a: int, b: int, n: int)
    requires a <= b && n >= 0
    ensures a * n <= b * n
  {
    assert b * n - a * n == (b - a) * n;
  }

  /** `k * n <= x` makes `k` a lower bound of the quotient `x / n`. */
  lemma DivLowerBound(k: int, x: int, n: int)
    requires n > 0 && k * n <= x
    ensures k <= x / n
  {
    var q := x / n;
    assert x == q * n + x % n;
    assert (q + 1) * n == q * n + n;
    if q < k {
      MulMonotone(q + 1, k, n);
      assert false;
    }
  }

  lemma DivMonotone(a: int, b: int, n: int)
    requires 0 <= a <= b && n > 0
    ensures a / n <= b / n
  {
    var q := a / n;
    assert q * n <= a by {
      assert a == q * n + a % n;
    }
    DivLowerBound(q, b, n);
  }

  /** Sum of quotients never exceeds the quotient of the sum. */
  lemma DivAdd(a: int, b: int, n: int)
    requires a >= 0 && b >= 0 && n > 0
    ensures a / n + b / n <= (a + b) / n
  {
    var q, q' := a / n, b / n;
    assert a == q * n + a % n;
    assert b == q' * n + b % n;
    assert (q + q') * n == q * n + q' * n;
    DivLowerBound(q + q', a + b, n);
  }

  /** A line that is on screen has its interrupt due within the frame. */
  lemma LineCycleInFrame(t: FrameTiming, line: nat)
    requires t.Valid() && line < t.lines
    ensures 1 <= t.LineCycle(line) <= t.cycles
  {
    var c, n := t.cycles, t.lines;
    var x := line * c;
    var q := x / n;
    MulMonotone(0, line, c);
    DivMonotone(0, x, n);
    assert q * n <= x by {
      assert x == q * n + x % n;
    }
    MulMonotone(line, n - 1, c);
    assert (n - 1) * c == n * c - c;
    assert c * n == n * c;
    if q >= c {
      MulMonotone(c, q, n);
      assert false;
    }
  }

  /** Later lines never start earlier. */
  lemma LineStartMonotone(t: FrameTiming, a: nat, b: nat)
    requires t.Valid() && a <= b
    ensures 0 <= t.LineStart(a) <= t.LineStart(b)
  {
    MulMonotone(a, b, t.cycles);
    DivMonotone(a * t.cycles, b * t.cycles, t.lines);
  }

  /** An interrupt due no later than the start of line `k` belongs to a line
      above `k`. */
  lemma DueBeforeLine(t: FrameTiming, line: nat, k: nat)
    requires t.Valid() && t.LineCycle(line) <= t.LineStart(k)
    ensures line < k
  {
    if line >= k {
      LineStartMonotone(t, k, line);
      assert false;
    }
  }

  /** The frame ends at the start of line N. */
  lemma FrameEnd(t: FrameTiming)
    requires t.Valid()
    ensures t.LineStart(t.lines) == t.cycles
  {
    var c, n := t.cycles, t.lines;
    var q := n * c / n;
    assert n * c == q * n + (n * c) % n;
    assert n * c == c * n;
    DivLowerBound(c, n * c, n);
    assert (c + 1) * n == c * n + n;
    if q > c {
      MulMonotone(c + 1, q, n);
      assert false;
    }
  }

  /** The phase boundaries of a frame come in order and stay inside it. */
  lemma PhaseOrder(t: FrameTiming)
    requires t.Valid()
    ensures 0 <= t.Scanline() <= t.LeadInEnd() <= t.DisplayEnd() <= t.cycles
  {
    LineStartMonotone(t, 1, FirstLine);
    LineStartMonotone(t, FirstLine, DisplayLines);
    LineStartMonotone(t, DisplayLines, t.lines);
    FrameEnd(t);
  }

  /** The three segments of the active display end inside it, the last one
      exactly at its end. */
  lemma SegmentsInDisplay(t: FrameTiming, i: nat)
    requires t.Valid() && i < 3
    ensures 0 <= t.SegmentEnd(i) <= t.DisplayEnd()
    ensures i == 2 ==> t.SegmentEnd(i) == t.DisplayEnd()
    ensures i > 0 ==> t.SegmentEnd(i - 1) <= t.SegmentEnd(i)
  {
    var d := t.DisplayEnd();
    LineStartMonotone(t, 0, DisplayLines);
    MulMonotone(i + 1, 3, d);
    DivMonotone((i + 1) * d, 3 * d, 3);
    if i > 0 {
      MulMonotone(i, i + 1, d);
      DivMonotone(i * d, (i + 1) * d, 3);
    }
  }

  /** Two scanlines past the end of the lead-in still lie inside the active
      display: the room a lead-in dispatch needs. */
  lemma LeadInRoom(t: FrameTiming)
    requires t.Valid()
    ensures 2 * t.Scanline() + t.LeadInEnd() <= t.DisplayEnd()
  {
    var c, n := t.cycles, t.lines;
    DivAdd(c, c, n);
    DivAdd(c + c, FirstLine * c, n);
    assert c + c + FirstLine * c == 18 * c;
    MulMonotone(18, DisplayLines, c);
    DivMonotone(18 * c, DisplayLines * c, n);
  }

  /** A later line starts at least one scanline's worth of cycles later. */
  lemma LineStartStep(t: FrameTiming, a: nat, b: nat)
    requires t.Valid() && a < b
    ensures t.LineStart(a) + t.Scanline() <= t.LineStart(b)
  {
    var c, n := t.cycles, t.lines;
    assert (a + 1) * c == a * c + c;
    DivAdd(a * c, c, n);
    LineStartMonotone(t, a + 1, b);
  }
}
